=== FILE: README.md ===
# Debounced push buttons on an ESP32

This project models the button driver of an ESP32 game controller
(`components/button/button.c`). Each button is a per-pin state machine. An edge
interrupt records a raw sample and starts a periodic debounce timer. Every timer
tick samples the pin and counts consecutive samples that agree with the recorded
raw sample. Once the count reaches the configured threshold, the raw state is
committed and the timer stops. If the committed state changed, one event keyed
by the pin is posted to the default event loop, and every handler registered for
that pin receives a copy of `{state, timestamp}`.

The model is functional. A button is an immutable `Button.Instance` record.
The interrupt, the timer tick, the commit step and the configuration calls are
pure functions. The pin level and the current time are parameters. The timer is
a field that is either `Disarmed` or `Armed(periodUs)`. A post is returned as an
optional event. Concurrency between the interrupt and the timer task is modelled
as an arbitrary interleaving of atomic steps: `Debounce.Run` handles one button,
and `Board.RunBoard` handles several buttons that share the "ISR service
installed" flag and one event loop.

Modules:
- `Esp`: fixed-width types (`UInt8`, `Int64`) and `esp_err_t` codes.
- `EventBus`: handler registration per event id, fan-out of posts, and the optional post a step may make.
- `Button`: the functions of `button.c`.
- `Debounce`: one button under interleaved actions, and the lemmas about such runs.
- `Scenarios`: concrete runs from a freshly initialised button.
- `Board`: several buttons, the shared installed flag, and the posted and delivered events.

The model follows the code as written. Several of its behaviours are worth
knowing:
- The interrupt stores the GPIO level without applying polarity, but the tick
  compares against the polarity-adjusted level. On an active-low button, a
  tick that reads the same level as the interrupt therefore disagrees
  (`Debounce.ActiveLowFirstTickDisagrees`), so a clean press settles one sample
  late (`Scenarios.ScenarioAActiveLow`). A tick that reads the opposite level,
  as during a bounce, agrees instead.
- The debounce counter is a `uint8_t` that only a disagreeing sample resets. It
  is not reset on commit or on arming, so after the first commit it is usually
  still at or above the threshold. An active-high button then settles on the
  first agreeing tick of its next cycle (`Debounce.CounterCarriesAcrossCycles`).
  An active-low button settles after a single bouncing tick: an edge that reads
  low followed by a tick that reads high commits a release while the button is
  held (`Debounce.ActiveLowBounceCommitsAfterOneSample`). The 256th agreeing
  sample wraps the counter to zero (`Debounce.CounterWraps`).
- A disagreeing sample only replaces the raw sample and is not itself counted.
  With threshold 3, the samples 1, 0, 1, 1, 1 after an edge to high commit
  nothing, and a sixth high sample commits the press (`Scenarios.ScenarioB`).
- `button_init` commits `false` as the initial state. It does not sample the pin.
- When the installed flag is still false and `gpio_install_isr_service` reports
  `ESP_ERR_INVALID_STATE`, `button_init` sets the flag and also returns that
  error code to its caller. When the installation fails in any other way, no ISR
  service is installed. Attaching the pin's handler then fails, and
  `ESP_ERROR_CHECK` aborts the program (`Button.Init`, `Board.BoardStep`).
- Registering a handler function that is already registered for the pin does
  not add a second subscriber. The existing entry only takes the new argument
  (`EventBus.ReRegisteringReplacesArgument`).

## Model

| member | source | states |
|---|---|---|
| `Button.GetRawState` | components/button/button.c:13-16 | the logical reading is the level inverted for active-low buttons: active-low reads low as pressed, active-high reads high as pressed |
| `Button.UpdateState` | components/button/button.c:18-26 | committing the state already held changes nothing and posts nothing; otherwise the state becomes the new one, the timestamp becomes `now`, and exactly one event keyed by the pin carries the new state info |
| `Button.DebounceTimerCallback` | components/button/button.c:28-45 | a disagreeing sample sets the counter to 0 and becomes the raw state, leaving the committed state and the timer alone; an agreeing sample advances the counter modulo 256, and at or above the threshold commits the raw state and stops the timer whether or not the state changed; any post carries the sampled state and time |
| `Button.StartPeriodic` | components/button/button.c:52-53 | starting the periodic timer arms a stopped timer with the requested period and leaves a running timer's period as it was |
| `Button.IsrHandler` | components/button/button.c:47-54 | the interrupt stores the level without applying polarity (so an active-low sample disagrees with the logical reading), leaves the timer running or arms it at interval × 1000 µs, and changes no other field |
| `Button.Init` | components/button/button.c:66-98 | a failed gpio_config is returned and leaves the instance and the flag untouched; on success the instance has the given pin and polarity, raw and committed state false, the timestamp `now`, counter 0, a stopped timer and config 5 checks / 10 ms; the flag becomes true only on ESP_OK or ESP_ERR_INVALID_STATE and never becomes false; the call aborts exactly when gpio_config succeeded but the flag is still false afterwards; otherwise it returns the gpio_config result once the flag is set, and the installation result (ESP_OK or ESP_ERR_INVALID_STATE) otherwise |
| `Button.SetDebounceConf` | components/button/button.c:104-111 | both tunables are replaced, no other field changes, and the result is always ESP_OK |
| `Button.SetEventHandler` | components/button/button.c:113-120 | a successful registration makes the handler a handler of the button's pin, appended if its function was not yet registered there and otherwise taking the place of the earlier entry without adding one; the pin's other handlers keep their entries and arguments, and other pins' handler lists are unchanged; a failed one changes nothing; no registered function is ever removed; the registration result is returned |
| `EventBus.Register` | components/button/button.c:117-118 | a successful registration appends a handler function not yet registered for the id, and gives an already registered one the new argument without lengthening the list, leaving the id's other entries and their arguments unchanged; other ids are unchanged; registered functions keep their positions; each function stays registered at most once per id |
| `EventBus.Deliver` | components/button/button.c:24-25 | a post reaches every handler registered for its id, in registration order, each with the same payload |
| `EventBus.DeliverOncePerFn` | components/button/button.c:24-25 | while each handler function is registered at most once per id, a post reaches each handler function at most once |
| `EventBus.DeliverAllRouted` | components/button/button.c:24-25 | every delivery of a sequence of posts goes to a handler registered for the post's id, with a payload posted under that id |
| `EventBus.RoutedMonotone` | components/button/button.c:117-118 | new registrations and further posts never invalidate earlier deliveries' routing |
| `EventBus.TwoHandlersSameSnapshot` | components/button/button.c:113-120 | two different handler functions registered for the same pin both receive a later post, with identical payloads |
| `EventBus.ReRegisteringReplacesArgument` | components/button/button.c:117-118 | registering the same handler function twice for a pin leaves the number of deliveries unchanged; a post reaches that function exactly once, with the latest argument, and no function twice |
| `Debounce.Apply` | components/button/button.c:28-54 | a single interrupt, tick or reconfiguration posts only from a tick of a running timer, posts exactly when the committed state flips, keys the post by the pin, and never changes pin or polarity; an interrupt stores the read level, leaves the timer running, and changes nothing else; a tick on a stopped timer does nothing; a reconfiguration only replaces the debounce settings; neither an interrupt nor a reconfiguration touches the counter or the committed state info |
| `Debounce.RunPublishesOnlyChanges` | components/button/button.c:18-26 | over any interleaving, every event is keyed by the pin, successive events alternate between pressed and released starting opposite the initial committed state, and the committed state info is the last event's payload |
| `Debounce.AccessorSeesLastPublished` | components/button/button.c:122-124 | `button_get_state_info` (`Button.GetStateInfo`) returns the committed state info by value; after any run that posted, that copy equals the payload of the last event |
| `Debounce.AtMostOnePostPerTick` | components/button/button.c:28-45 | a run posts no more events than it has timer ticks |
| `Debounce.QuietBelowThreshold` | components/button/button.c:33-40 | agreeing samples that leave the counter below the threshold only advance the counter: no commit, no post, the timer keeps running |
| `Debounce.CommitsAtThreshold` | components/button/button.c:33-40 | the agreeing sample that brings the counter to the threshold commits the raw state and stops the timer, posting one event stamped with that sample's time exactly when the state changes |
| `Debounce.SettlesAfterThresholdSamples` | components/button/button.c:28-45 | after a disagreeing sample, fewer than `checks` further samples of the new value commit nothing and keep the timer running; the `checks`-th one commits the new value and stops the timer |
| `Debounce.EdgeKeepsRunningCycle` | components/button/button.c:47-54 | an edge during a running cycle keeps the timer's original period even after a reconfiguration; apart from the new configuration it overwrites only the raw sample, leaving counter, committed state info, pin and polarity as they were, and posts nothing |
| `Debounce.ActiveLowFirstTickDisagrees` | components/button/button.c:28-54 | on an active-low button, the first tick after an edge that reads the same level disagrees: the counter is reset to 0, the raw sample becomes the adjusted level, and nothing is posted |
| `Debounce.CounterCarriesAcrossCycles` | components/button/button.c:33-40 | the counter survives commit and arming, so an active-high button whose counter is still at or above the threshold commits on the first agreeing tick after the next edge |
| `Debounce.ActiveLowBounceCommitsAfterOneSample` | components/button/button.c:28-54 | on an active-low button whose counter is at or above the threshold, an edge reading one level followed by a tick reading the opposite level commits the edge's level and stops the timer after that single sample, posting it if it differs from the committed state |
| `Debounce.CounterWraps` | components/button/button.h:30 | the 8-bit counter wraps from 255 to 0 on an agreeing sample, which then does not settle |
| `Scenarios.Fresh` | components/button/button.c:79-86 | right after a successful init the button is released, timestamped at the init time, counter 0, timer stopped, 5 checks / 10 ms |
| `Scenarios.ScenarioA` | components/button/button.c:28-54 | active-high, threshold 5: an edge to high and four high samples post nothing; the fifth posts exactly one event, pressed, at the fifth sample's time |
| `Scenarios.ScenarioAActiveLow` | components/button/button.c:47-54 | the same press on an active-low button is not committed after five samples and is committed at the sixth |
| `Scenarios.BounceDiscardsProgress` | components/button/button.c:41-44 | on an active-high button just after an edge to high, samples high, low, high return it to exactly its previous state: the disagreements discard the counted progress |
| `Scenarios.ScenarioB` | components/button/button.c:28-45 | threshold 3, samples 1, 0, 1, 1, 1 after an edge to high: nothing is committed after five samples; a sixth high sample posts the press |
| `Board.BoardStep` | main/kb.c:9-36 | one operation on one instance leaves every other instance unchanged and never clears the installed flag; a driven action appends exactly the event its button step posts (keyed by that instance's pin) and delivers it to the handlers then registered; a non-aborting button_init installs the initialised instance and the resulting flag; a subscription registers the handler through button_set_event_handler, changes no instance, and is the only operation that changes registrations, never removing one; an aborting button_init only halts the board; a button_init halts the board exactly when it aborts, and a halted board never changes |
| `Board.HaltIsFinal` | components/button/button.c:96 | after an aborting button_init, no later operation has any effect |
| `Board.InstalledNeverResets` | components/button/button.c:90-95 | once the installed flag is set it stays set over any sequence of operations |
| `Board.OnlyInitInstalls` | components/button/button.c:90-95 | operations other than button_init never change the installed flag |
| `Board.SlotFollowsOwnActions` | components/button/button.c:47-54 | until it is re-initialised, and unless the program aborted, an instance's state after any interleaving equals its state after its own actions alone: no cross-talk between buttons |
| `Board.DeliveriesStayRouted` | components/button/button.c:24-25 | over any interleaving, every delivery calls a handler function registered for the event's pin, with a payload that was posted under that pin |

## Left out

- Hardware and ESP-IDF calls are inputs of the model. The pin level, the time, the result of `gpio_config`, the result of `gpio_install_isr_service` and the result of `esp_event_handler_register` are parameters.
- `button_set_pullmode` is a pure pass-through to `gpio_set_pull_mode` and holds no state of the driver.
- Creating the debounce timer and attaching the interrupt handler are wrapped in `ESP_ERROR_CHECK`, which aborts the program on failure. The model includes the one abort that follows from the driver's own state: attaching fails when no ISR service is installed. It assumes that timer creation always succeeds, and that attaching succeeds whenever the service is installed. A fresh timer starts stopped.
- Re-initialising an instance whose timer is running creates a new timer and leaks the old one, which keeps firing. The model replaces the timer with a stopped one.
- `esp_timer_start_periodic` rejects periods below the platform minimum, for example interval 0. The model arms the timer with any period.
- `1ULL << pin` is undefined for pin numbers of 64 or more. The model leaves pin validity to the `gpio_config` result.
- True concurrency is modelled only as interleavings of atomic steps. A tick that reads `_raw_state` while the interrupt writes it is not modelled at a finer grain.
- The event loop's queue is not modelled: a post is delivered at once, in registration order. A post that fails because the queue is full is not modelled either.
- The display task, the handlers' cursor arithmetic and the logging in `main/main.c` are not part of the driver.

=== FILE: board.dfy ===
/**
 * Several button_t instances sharing the process-wide "ISR service installed"
 * flag and one event loop, driven by an arbitrary interleaving of operations on
 * any of them. Each operation is one atomic step; the return codes of
 * button_init and button_set_event_handler are dropped, as the keyboard task
 * drops them. A button_init that aborts the program halts the board: no
 * further operation has any effect.
 */
module Board {
  import opened Esp
  import opened EventBus
  import opened Button
  import opened Debounce

  datatype BoardState = BoardState(
    slots: seq<Instance>,
    installed: bool,
    subs: Subscriptions,
    posted: seq<Event>,
    delivered: seq<Delivery<StateInfo>>,
    halted: bool)

  datatype Op =
    | Create(slot: nat, pin: Pin, activeLow: bool, configResult: Err, installResult: Err, now: Int64)
    | Drive(slot: nat, action: Action)
    | Subscribe(slot: nat, handler: Handler, registerResult: Err)

  /** One operation on one instance. */
  function BoardStep(bd: BoardState, op: Op): (r: BoardState)
    requires op.slot < |bd.slots|
    ensures |r.slots| == |bd.slots|
    ensures forall j :: 0 <= j < |bd.slots| && j != op.slot ==> r.slots[j] == bd.slots[j]
    ensures bd.installed ==> r.installed
    ensures !op.Create? ==> r.installed == bd.installed
    ensures Extends(bd.subs, r.subs)
    ensures WellFormed(bd.subs) ==> WellFormed(r.subs)
    ensures bd.halted ==> r == bd
    ensures !op.Create? ==> r.halted == bd.halted
    ensures op.Drive? && !bd.halted ==> r.slots[op.slot] == Apply(bd.slots[op.slot], op.action).btn
    ensures op.Create? && !bd.halted ==>
              (r.halted <==> Init(bd.slots[op.slot], op.pin, op.activeLow, op.configResult,
                                  op.installResult, op.now, bd.installed).aborts)
    ensures bd.posted <= r.posted && |r.posted| <= |bd.posted| + 1
    ensures forall k :: |bd.posted| <= k < |r.posted| ==> op.Drive? && r.posted[k].id == bd.slots[op.slot].pin
    ensures r.delivered == bd.delivered + DeliverAll(bd.subs, r.posted[|bd.posted|..])
    ensures op.Drive? && !bd.halted ==>
              r.posted == bd.posted + ToSeq(Apply(bd.slots[op.slot], op.action).posted)
    ensures op.Create? && !bd.halted ==>
              var init := Init(bd.slots[op.slot], op.pin, op.activeLow, op.configResult,
                               op.installResult, op.now, bd.installed);
              !init.aborts ==> r.slots[op.slot] == init.btn && r.installed == init.installed
    ensures op.Subscribe? && !bd.halted ==>
              r.subs == SetEventHandler(bd.subs, bd.slots[op.slot], op.handler, op.registerResult).1
    ensures !op.Subscribe? ==> r.subs == bd.subs
    ensures op.Subscribe? ==> r.slots == bd.slots
    ensures op.Create? && !bd.halted ==>
              var init := Init(bd.slots[op.slot], op.pin, op.activeLow, op.configResult,
                               op.installResult, op.now, bd.installed);
              init.aborts ==> r == bd.(halted := true)
  {
    var b := bd.slots[op.slot];
    if bd.halted then bd
    else
    match op
    case Create(i, pin, activeLow, configResult, installResult, now) =>
      var init := Init(b, pin, activeLow, configResult, installResult, now, bd.installed);
      assert bd.posted[|bd.posted|..] == [];
      if init.aborts then bd.(halted := true)
      else bd.(slots := bd.slots[i := init.btn], installed := init.installed)
    case Drive(i, a) =>
      var s := Apply(b, a);
      var newPosts := ToSeq(s.posted);
      assert (bd.posted + newPosts)[|bd.posted|..] == newPosts;
      bd.(slots := bd.slots[i := s.btn], posted := bd.posted + newPosts,
          delivered := bd.delivered + DeliverAll(bd.subs, newPosts))
    case Subscribe(i, h, registerResult) =>
      assert bd.posted[|bd.posted|..] == [];
      bd.(subs := SetEventHandler(bd.subs, b, h, registerResult).1)
  }

  /** Every operation addresses an existing instance. */
  ghost predicate ValidOps(ops: seq<Op>, n: nat)
  {
    forall k :: 0 <= k < |ops| ==> ops[k].slot < n
  }

  function RunBoard(bd: BoardState, ops: seq<Op>): (r: BoardState)
    requires ValidOps(ops, |bd.slots|)
    decreases |ops|
  {
    if ops == [] then bd
    else
      var bd' := BoardStep(bd, ops[0]);
      RunBoard(bd', ops[1..])
  }

  /** The installed flag, once set, stays set: it goes only from false to true. */
  lemma {:induction false} InstalledNeverResets(bd: BoardState, ops: seq<Op>)
    requires ValidOps(ops, |bd.slots|)
    requires bd.installed
    ensures RunBoard(bd, ops).installed
    decreases |ops|
  {
    if ops != [] {
      InstalledNeverResets(BoardStep(bd, ops[0]), ops[1..]);
    }
  }

  /** Without a button_init the flag never changes. */
  lemma {:induction false} OnlyInitInstalls(bd: BoardState, ops: seq<Op>)
    requires ValidOps(ops, |bd.slots|)
    requires forall k :: 0 <= k < |ops| ==> !ops[k].Create?
    ensures RunBoard(bd, ops).installed == bd.installed
    decreases |ops|
  {
    if ops != [] {
      OnlyInitInstalls(BoardStep(bd, ops[0]), ops[1..]);
    }
  }

  /** Nothing happens after the program aborted. */
  lemma {:induction false} HaltIsFinal(bd: BoardState, ops: seq<Op>)
    requires ValidOps(ops, |bd.slots|)
    requires bd.halted
    ensures RunBoard(bd, ops) == bd
    decreases |ops|
  {
    if ops != [] {
      HaltIsFinal(BoardStep(bd, ops[0]), ops[1..]);
    }
  }

  /** The actions an operation sequence applies to instance `i`. */
  function ActionsOn(ops: seq<Op>, i: nat): (trace: seq<Action>)
    ensures |trace| <= |ops|
    ensures trace == [] <==> forall k :: 0 <= k < |ops| ==> !(ops[k].Drive? && ops[k].slot == i)
    ensures forall a :: a in trace ==> exists k :: 0 <= k < |ops| && ops[k] == Drive(i, a)
  {
    if ops == [] then []
    else (if ops[0].Drive? && ops[0].slot == i then [ops[0].action] else []) + ActionsOn(ops[1..], i)
  }

  /**
   * Instances do not interfere: as long as instance `i` is not re-initialised,
   * its state after any interleaving is exactly its state after its own
   * actions alone, whatever happens to the other instances, unless the
   * program aborted.
   */
  lemma {:induction false} SlotFollowsOwnActions(bd: BoardState, ops: seq<Op>, i: nat)
    requires ValidOps(ops, |bd.slots|)
    requires i < |bd.slots|
    requires forall k :: 0 <= k < |ops| ==> !(ops[k].Create? && ops[k].slot == i)
    ensures |RunBoard(bd, ops).slots| == |bd.slots|
    ensures !RunBoard(bd, ops).halted ==>
              RunBoard(bd, ops).slots[i] == Run(bd.slots[i], ActionsOn(ops, i)).btn
    decreases |ops|
  {
    if ops != [] {
      var bd' := BoardStep(bd, ops[0]);
      SlotFollowsOwnActions(bd', ops[1..], i);
      if bd'.halted {
        HaltIsFinal(bd', ops[1..]);
        return;
      }
      assert RunBoard(bd, ops) == RunBoard(bd', ops[1..]);
      if ops[0].Drive? && ops[0].slot == i {
        assert bd'.slots[i] == Apply(bd.slots[i], ops[0].action).btn;
        assert ActionsOn(ops, i) == [ops[0].action] + ActionsOn(ops[1..], i);
        assert ([ops[0].action] + ActionsOn(ops[1..], i))[1..] == ActionsOn(ops[1..], i);
      } else {
        assert bd'.slots[i] == bd.slots[i];
        assert ActionsOn(ops, i) == ActionsOn(ops[1..], i);
      }
    }
  }

  /**
   * Every delivery reaches a handler registered for the event's pin, with a
   * payload that was posted under that pin: posts never reach another pin's handlers.
   */
  lemma {:induction false} DeliveriesStayRouted(bd: BoardState, ops: seq<Op>)
    requires ValidOps(ops, |bd.slots|)
    requires Routed(bd.subs, bd.posted, bd.delivered)
    ensures var r := RunBoard(bd, ops); Routed(r.subs, r.posted, r.delivered)
    decreases |ops|
  {
    if ops != [] {
      var bd' := BoardStep(bd, ops[0]);
      var newPosts := bd'.posted[|bd.posted|..];
      DeliverAllRouted(bd.subs, newPosts);
      assert forall p :: p in newPosts ==> p in bd'.posted;
      assert forall p :: p in bd.posted ==> p in bd'.posted;
      RoutedMonotone(bd.subs, bd'.subs, bd.posted, bd'.posted, bd.delivered);
      RoutedMonotone(bd.subs, bd'.subs, newPosts, bd'.posted, DeliverAll(bd.subs, newPosts));
      assert Routed(bd'.subs, bd'.posted, bd'.delivered);
      DeliveriesStayRouted(bd', ops[1..]);
    }
  }
}

=== FILE: button.dfy ===
/**
 * One debounced push button (components/button/button.c). Every hardware
 * interaction is an input or an output: the pin level and the current time are
 * parameters, the periodic debounce timer is the `timer` field, and an event
 * post is returned as an optional `Event` rather than sent.
 */
module Button {
  import opened Esp
  import opened EventBus

  /** Defaults button_init installs. */
  const DefaultChecks: UInt8 := 5
  const DefaultIntervalMs: UInt8 := 10
  const MicrosPerMs: nat := 1000

  /** button_state_info_t: the committed logical state and the time it was committed. */
  datatype StateInfo = StateInfo(state: bool, timestamp: Int64)

  /** button_debounce_cfg: agreeing samples needed to settle, and the sampling interval. */
  datatype DebounceCfg = DebounceCfg(checks: UInt8, intervalMs: UInt8)

  /** The esp_timer owned by a button: stopped, or firing every `periodUs` microseconds. */
  datatype Timer = Disarmed | Armed(periodUs: nat)

  /** button_t. */
  datatype Instance = Instance(
    pin: Pin,
    activeLow: bool,
    rawState: bool,
    info: StateInfo,
    counter: UInt8,
    timer: Timer,
    cfg: DebounceCfg)

  /** A BUTTON_EVENTS post: keyed by the pin, carrying a copy of the state info. */
  type Event = Post<StateInfo>

  /** A button after one step, and the event that step posted, if any. */
  datatype Step = Step(btn: Instance, posted: Option<Event>)

  /** A state transition: posts an event exactly when the committed state flips, and never touches identity. */
  ghost predicate Publishes(b: Instance, s: Step)
  {
    && s.btn.pin == b.pin
    && s.btn.activeLow == b.activeLow
    && (s.posted.None? ==> s.btn.info == b.info)
    && (s.posted.Some? ==>
          && s.btn.info.state != b.info.state
          && s.posted.value == Post(b.pin, s.btn.info))
  }

  /** _button_get_raw_state: the logical reading of a pin level; an active-low button reads a low pin as pressed. */
  function GetRawState(b: Instance, level: bool): (pressed: bool)
    ensures b.activeLow ==> (pressed <==> !level)
    ensures !b.activeLow ==> (pressed <==> level)
  {
    level != b.activeLow
  }

  /**
   * _button_update_state: commits `state`. Committing the state already held
   * changes nothing and posts nothing; otherwise the state and timestamp are
   * replaced and one event, keyed by the pin, carries the new state info.
   */
  function UpdateState(b: Instance, state: bool, now: Int64): (r: Step)
    ensures Publishes(b, r)
    ensures r.btn.info.state == state
    ensures r.posted.Some? <==> b.info.state != state
    ensures r.posted.Some? ==> r.btn.info.timestamp == now
    ensures r.btn == b.(info := r.btn.info)
  {
    if b.info.state == state then Step(b, None)
    else
      var b' := b.(info := StateInfo(state, now));
      Step(b', Some(Post(b.pin, b'.info)))
  }

  /** esp_timer_start_periodic: starts a stopped timer; a running timer keeps its period (the call fails harmlessly). */
  function StartPeriodic(t: Timer, periodUs: nat): (r: Timer)
    ensures r.Armed?
    ensures t.Armed? ==> r == t
    ensures t.Disarmed? ==> r.periodUs == periodUs
  {
    if t.Armed? then t else Armed(periodUs)
  }

  /**
   * _debounce_timer_callback: one sample while the timer runs. A sample that
   * agrees with `rawState` bumps the 8-bit counter (wrapping at 256); once the
   * counter reaches `checks` the raw state is committed and the timer stopped,
   * whether or not the committed state changed. A disagreeing sample restarts
   * the count from zero and becomes the new raw state.
   */
  function DebounceTimerCallback(b: Instance, level: bool, now: Int64): (r: Step)
    ensures Publishes(b, r)
    ensures r.btn.cfg == b.cfg
    ensures GetRawState(b, level) != b.rawState ==>
              r == Step(b.(counter := 0, rawState := GetRawState(b, level)), None)
    ensures GetRawState(b, level) == b.rawState ==>
              && r.btn.rawState == b.rawState
              && r.btn.counter == (b.counter + 1) % UInt8Modulus
              && (r.btn.counter >= b.cfg.checks ==>
                    r.btn.timer == Disarmed && r.btn.info.state == b.rawState)
              && (r.btn.counter < b.cfg.checks ==>
                    r == Step(b.(counter := r.btn.counter), None))
    ensures r.posted.Some? ==> r.btn.info.state == GetRawState(b, level) && r.btn.info.timestamp == now
  {
    var sample := GetRawState(b, level);
    if sample == b.rawState then
      var counted := b.(counter := (b.counter + 1) % UInt8Modulus);
      if counted.counter >= counted.cfg.checks then
        var u := UpdateState(counted, counted.rawState, now);
        Step(u.btn.(timer := Disarmed), u.posted)
      else Step(counted, None)
    else Step(b.(counter := 0, rawState := sample), None)
  }

  /**
   * _button_isr_handler: stores the pin level as read, without applying the
   * polarity, and starts the periodic timer at the configured interval. The
   * counter and the committed state are untouched.
   */
  function IsrHandler(b: Instance, level: bool): (r: Instance)
    ensures r.rawState == level
    ensures b.activeLow ==> r.rawState != GetRawState(b, level)
    ensures r.timer.Armed?
    ensures b.timer.Armed? ==> r.timer == b.timer
    ensures b.timer.Disarmed? ==> r.timer.periodUs == b.cfg.intervalMs * MicrosPerMs
    ensures r == b.(rawState := level, timer := r.timer)
  {
    b.(rawState := level, timer := StartPeriodic(b.timer, b.cfg.intervalMs * MicrosPerMs))
  }

  /**
   * What button_init returns, the instance it leaves, the process-wide "ISR
   * service installed" flag after it, and whether it aborts instead of
   * returning.
   */
  datatype InitResult = InitResult(ret: Err, btn: Instance, installed: bool, aborts: bool)

  /**
   * button_init. `configResult` is what gpio_config returned and
   * `installResult` what gpio_install_isr_service would return; `installed` is
   * the process-wide flag before the call. When the flag is still false after
   * the installation attempt, no ISR service is installed, so attaching the
   * pin's interrupt handler fails and ESP_ERROR_CHECK aborts the program.
   */
  function Init(b: Instance, pin: Pin, activeLow: bool, configResult: Err, installResult: Err,
                now: Int64, installed: bool): (r: InitResult)
    ensures configResult != Ok ==> r == InitResult(configResult, b, installed, false)
    ensures configResult == Ok ==>
              && r.btn.pin == pin && r.btn.activeLow == activeLow
              && !r.btn.rawState && r.btn.info == StateInfo(false, now)
              && r.btn.counter == 0 && r.btn.timer == Disarmed
              && r.btn.cfg == DebounceCfg(DefaultChecks, DefaultIntervalMs)
    ensures installed ==> r.installed
    ensures configResult == Ok && !installed ==>
              (r.installed <==> installResult == Ok || installResult == ErrInvalidState)
    ensures r.aborts <==> configResult == Ok && !r.installed
    ensures configResult == Ok && !r.aborts ==>
              && r.ret == (if installed then Ok else installResult)
              && (r.ret == Ok || r.ret == ErrInvalidState)
  {
    if configResult != Ok then InitResult(configResult, b, installed, false)
    else
      var blank := Instance(pin, activeLow, false, StateInfo(false, now), 0, Disarmed,
                            DebounceCfg(DefaultChecks, DefaultIntervalMs));
      if installed then InitResult(configResult, blank, true, false)
      else
        var nowInstalled := installResult == Ok || installResult == ErrInvalidState;
        InitResult(installResult, blank, nowInstalled, !nowInstalled)
  }

  /** button_set_debounce_conf: replaces both tunables, nothing else, and always succeeds. */
  function SetDebounceConf(b: Instance, cfg: DebounceCfg): (r: (Err, Instance))
    ensures r.0 == Ok
    ensures r.1.cfg == cfg
    ensures r.1 == b.(cfg := r.1.cfg)
  {
    (Ok, b.(cfg := cfg))
  }

  /**
   * button_set_event_handler: registers `h` for the events keyed by this
   * button's pin. A handler function already registered for the pin only takes
   * the new argument.
   */
  function SetEventHandler(subs: Subscriptions, b: Instance, h: Handler, registerResult: Err): (r: (Err, Subscriptions))
    ensures r.0 == registerResult
    ensures registerResult != Ok ==> r.1 == subs
    ensures registerResult == Ok ==> h in HandlersFor(r.1, b.pin)
    ensures registerResult == Ok && !HasFn(HandlersFor(subs, b.pin), h.fn) ==>
              HandlersFor(r.1, b.pin) == HandlersFor(subs, b.pin) + [h]
    ensures registerResult == Ok && HasFn(HandlersFor(subs, b.pin), h.fn) ==>
              |HandlersFor(r.1, b.pin)| == |HandlersFor(subs, b.pin)|
    ensures registerResult == Ok ==>
              forall k :: 0 <= k < |HandlersFor(subs, b.pin)| && HandlersFor(subs, b.pin)[k].fn != h.fn ==>
                HandlersFor(r.1, b.pin)[k] == HandlersFor(subs, b.pin)[k]
    ensures forall other :: other != b.pin ==> HandlersFor(r.1, other) == HandlersFor(subs, other)
    ensures Extends(subs, r.1)
    ensures WellFormed(subs) ==> WellFormed(r.1)
  {
    (registerResult, Register(subs, b.pin, h, registerResult))
  }

  /** button_get_state_info: a by-value copy of the committed state info. */
  function GetStateInfo(b: Instance): (info: StateInfo)
  {
    b.info
  }
}

=== FILE: debounce.dfy ===
/**
 * A single button driven by an arbitrary interleaving of its contexts: edge
 * interrupts, ticks of its periodic timer, and reconfiguration. Each action is
 * one atomic step; a tick only samples while the timer is running.
 */
module Debounce {
  import opened Esp
  import opened EventBus
  import opened Button

  datatype Action =
    | Edge(level: bool)                 // GPIO interrupt, pin read as `level`
    | Tick(level: bool, now: Int64)     // timer expiry, pin read as `level` at time `now`
    | Configure(cfg: DebounceCfg)       // button_set_debounce_conf

  /** One atomic step of the button. */
  function Apply(b: Instance, a: Action): (r: Step)
    ensures Publishes(b, r)
    ensures r.posted.Some? ==> a.Tick? && b.timer.Armed?
    ensures a.Tick? && b.timer.Disarmed? ==> r == Step(b, None)
    ensures a.Edge? ==> r.btn == b.(rawState := a.level, timer := r.btn.timer) && r.btn.timer.Armed?
    ensures !a.Tick? ==> r.btn.counter == b.counter && r.btn.info == b.info
    ensures a.Configure? ==> r.btn == b.(cfg := a.cfg)
  {
    match a
    case Edge(level) => Step(IsrHandler(b, level), None)
    case Tick(level, now) =>
      if b.timer.Armed? then DebounceTimerCallback(b, level, now) else Step(b, None)
    case Configure(cfg) => Step(SetDebounceConf(b, cfg).1, None)
  }

  /** The button after a trace and the events it posted, in order. */
  datatype Outcome = Outcome(btn: Instance, log: seq<Event>)

  function Run(b: Instance, trace: seq<Action>): (o: Outcome)
    decreases |trace|
  {
    if trace == [] then Outcome(b, [])
    else
      var s := Apply(b, trace[0]);
      var rest := Run(s.btn, trace[1..]);
      Outcome(rest.btn, ToSeq(s.posted) + rest.log)
  }

  /** A step that posts nothing contributes nothing to the log. */
  lemma SilentStep(b: Instance, trace: seq<Action>)
    requires trace != [] && Apply(b, trace[0]).posted.None?
    ensures Run(b, trace) == Run(Apply(b, trace[0]).btn, trace[1..])
  {
  }

  /** The posted states alternate, starting with the opposite of `s0`. */
  ghost predicate Alternates(s0: bool, log: seq<Event>)
  {
    forall k :: 0 <= k < |log| ==> log[k].data.state == (if k % 2 == 0 then !s0 else s0)
  }

  /** Every event is keyed by `pin`. */
  ghost predicate KeyedBy(pin: Pin, log: seq<Event>)
  {
    forall k :: 0 <= k < |log| ==> log[k].id == pin
  }

  /** The committed state info after a log: the last posted payload, or `info0` if nothing was posted. */
  function LastInfo(info0: StateInfo, log: seq<Event>): (info: StateInfo)
  {
    if log == [] then info0 else log[|log| - 1].data
  }

  /**
   * Publication is idempotent over any interleaving: every event carries the
   * button's pin, consecutive events alternate between pressed and released
   * (re-settling on the committed value never posts), and the committed state
   * info is the payload of the last event.
   */
  lemma {:induction false} RunPublishesOnlyChanges(b: Instance, trace: seq<Action>)
    ensures var o := Run(b, trace);
            && o.btn.pin == b.pin && o.btn.activeLow == b.activeLow
            && KeyedBy(b.pin, o.log)
            && Alternates(b.info.state, o.log)
            && o.btn.info == LastInfo(b.info, o.log)
    decreases |trace|
  {
    if trace != [] {
      var s := Apply(b, trace[0]);
      var rest := Run(s.btn, trace[1..]);
      RunPublishesOnlyChanges(s.btn, trace[1..]);
      var log := ToSeq(s.posted) + rest.log;
      if s.posted.Some? {
        assert log == [s.posted.value] + rest.log;
        ConsAlternates(b.info.state, s.posted.value, rest.log);
      } else {
        assert log == rest.log;
      }
    }
  }

  /** An event flipping `s0`, followed by a log alternating from the flipped state, alternates from `s0`. */
  lemma ConsAlternates(s0: bool, e: Event, log: seq<Event>)
    requires e.data.state == !s0 && Alternates(!s0, log)
    ensures Alternates(s0, [e] + log)
  {
    var full := [e] + log;
    forall k | 0 <= k < |full|
      ensures full[k].data.state == (if k % 2 == 0 then !s0 else s0)
    {
      if k > 0 {
        assert full[k] == log[k - 1];
      }
    }
  }

  /** The accessor returns the snapshot the last event delivered. */
  lemma AccessorSeesLastPublished(b: Instance, trace: seq<Action>)
    requires |Run(b, trace).log| > 0
    ensures GetStateInfo(Run(b, trace).btn) == Run(b, trace).log[|Run(b, trace).log| - 1].data
  {
    RunPublishesOnlyChanges(b, trace);
  }

  /** Number of timer ticks in a trace. */
  function TickCount(trace: seq<Action>): (n: nat)
  {
    if trace == [] then 0 else (if trace[0].Tick? then 1 else 0) + TickCount(trace[1..])
  }

  /** Only timer ticks post, so a trace posts at most one event per tick. */
  lemma {:induction false} AtMostOnePostPerTick(b: Instance, trace: seq<Action>)
    ensures |Run(b, trace).log| <= TickCount(trace)
    decreases |trace|
  {
    if trace != [] {
      AtMostOnePostPerTick(Apply(b, trace[0]).btn, trace[1..]);
    }
  }

  /** A trace of ticks whose logical samples all read `v`. */
  ghost predicate SteadyTicks(b: Instance, trace: seq<Action>, v: bool)
  {
    forall k :: 0 <= k < |trace| ==> trace[k].Tick? && GetRawState(b, trace[k].level) == v
  }

  /** Fewer agreeing samples than the threshold only advance the counter. */
  lemma {:induction false} QuietBelowThreshold(b: Instance, trace: seq<Action>)
    requires b.timer.Armed?
    requires SteadyTicks(b, trace, b.rawState)
    requires b.counter + |trace| < b.cfg.checks
    ensures Run(b, trace) == Outcome(b.(counter := b.counter + |trace|), [])
    decreases |trace|
  {
    if trace != [] {
      var b1 := b.(counter := b.counter + 1);
      assert Apply(b, trace[0]) == Step(b1, None);
      assert SteadyTicks(b1, trace[1..], b1.rawState) by {
        forall k | 0 <= k < |trace[1..]|
          ensures trace[1..][k].Tick? && GetRawState(b1, trace[1..][k].level) == b1.rawState
        {
          assert trace[1..][k] == trace[k + 1];
        }
      }
      QuietBelowThreshold(b1, trace[1..]);
    }
  }

  /**
   * The sample that brings the counter to the threshold commits the raw state
   * and stops the timer; it posts one event, stamped with that sample's time,
   * exactly when the committed state changes.
   */
  lemma {:induction false} CommitsAtThreshold(b: Instance, trace: seq<Action>)
    requires b.timer.Armed?
    requires SteadyTicks(b, trace, b.rawState)
    requires |trace| > 0 && b.counter + |trace| == b.cfg.checks
    ensures var o := Run(b, trace);
            && o.btn.timer == Disarmed
            && o.btn.counter == b.cfg.checks
            && o.btn.info.state == b.rawState
            && o.log == (if b.rawState == b.info.state then []
                         else [Post(b.pin, StateInfo(b.rawState, trace[|trace| - 1].now))])
    decreases |trace|
  {
    var b1 := b.(counter := b.counter + 1);
    if |trace| == 1 {
      assert Run(b, trace) == Outcome(Apply(b, trace[0]).btn, ToSeq(Apply(b, trace[0]).posted));
    } else {
      assert Apply(b, trace[0]) == Step(b1, None);
      assert SteadyTicks(b1, trace[1..], b1.rawState) by {
        forall k | 0 <= k < |trace[1..]|
          ensures trace[1..][k].Tick? && GetRawState(b1, trace[1..][k].level) == b1.rawState
        {
          assert trace[1..][k] == trace[k + 1];
        }
      }
      CommitsAtThreshold(b1, trace[1..]);
    }
  }

  /**
   * Settling after a disagreement: the disagreeing sample restarts the count,
   * then `checks` further samples of the new value are needed. With fewer
   * nothing is committed; the `checks`-th commits the new value and stops the timer.
   */
  lemma SettlesAfterThresholdSamples(b: Instance, level: bool, now: Int64, trace: seq<Action>)
    requires b.timer.Armed? && b.cfg.checks >= 1
    requires GetRawState(b, level) != b.rawState
    requires SteadyTicks(b, trace, GetRawState(b, level))
    requires |trace| <= b.cfg.checks
    ensures |trace| < b.cfg.checks ==>
              && Run(b, [Tick(level, now)] + trace).log == []
              && Run(b, [Tick(level, now)] + trace).btn.timer.Armed?
    ensures |trace| == b.cfg.checks ==>
              && Run(b, [Tick(level, now)] + trace).btn.info.state == GetRawState(b, level)
              && Run(b, [Tick(level, now)] + trace).btn.timer == Disarmed
  {
    var full := [Tick(level, now)] + trace;
    var b1 := b.(counter := 0, rawState := GetRawState(b, level));
    assert Apply(b, full[0]) == Step(b1, None);
    assert full[1..] == trace;
    assert SteadyTicks(b1, trace, b1.rawState);
    if |trace| < b.cfg.checks {
      QuietBelowThreshold(b1, trace);
    } else {
      CommitsAtThreshold(b1, trace);
    }
  }

  /**
   * An edge never restarts a running cycle: the timer keeps the period it was
   * started with, even if the interval was reconfigured meanwhile; only the raw
   * sample is overwritten.
   */
  lemma EdgeKeepsRunningCycle(b: Instance, cfg: DebounceCfg, level: bool)
    requires b.timer.Armed?
    ensures var o := Run(b, [Configure(cfg), Edge(level)]);
            && o.btn == b.(cfg := cfg, rawState := level)
            && o.log == []
  {
    var c := SetDebounceConf(b, cfg).1;
    assert Run(b, [Configure(cfg), Edge(level)]) == Run(c, [Edge(level)]);
    assert Run(c, [Edge(level)]) == Outcome(IsrHandler(c, level), []);
  }

  /**
   * For an active-low button the interrupt stores the unadjusted level, so the
   * first tick after an edge that samples the same level always disagrees: it
   * resets the counter and commits nothing.
   */
  lemma ActiveLowFirstTickDisagrees(b: Instance, level: bool, now: Int64)
    requires b.activeLow
    ensures var o := Run(b, [Edge(level), Tick(level, now)]);
            && o.btn.counter == 0
            && o.btn.rawState == GetRawState(b, level)
            && o.btn.timer.Armed?
            && o.log == []
  {
    var e := IsrHandler(b, level);
    var t := DebounceTimerCallback(e, level, now);
    assert Run(b, [Edge(level), Tick(level, now)]) == Run(e, [Tick(level, now)]);
    assert Run(e, [Tick(level, now)]) == Outcome(t.btn, ToSeq(t.posted));
  }

  /**
   * The counter is not reset when a cycle commits nor when an edge starts the
   * next one. An active-high button whose counter is still at or above the
   * threshold (and below 255) settles on the very first agreeing tick of the
   * next cycle.
   */
  lemma CounterCarriesAcrossCycles(b: Instance, level: bool, now: Int64)
    requires !b.activeLow
    requires b.cfg.checks <= b.counter < UInt8Modulus - 1
    ensures var o := Run(b, [Edge(level), Tick(level, now)]);
            && o.btn.info.state == level
            && o.btn.timer == Disarmed
            && o.btn.counter == b.counter + 1
  {
    var e := IsrHandler(b, level);
    var t := DebounceTimerCallback(e, level, now);
    assert Run(b, [Edge(level), Tick(level, now)]) == Run(e, [Tick(level, now)]);
    assert Run(e, [Tick(level, now)]) == Outcome(t.btn, ToSeq(t.posted));
  }

  /**
   * The same carry-over on an active-low button during a bounce: the interrupt
   * stores the unadjusted level L, and a tick that reads the opposite level
   * produces the logical sample L, which agrees. With the counter still at or
   * above the threshold, that single sample commits L and stops the timer. So
   * on a button held pressed (committed true), a bounce whose edge reads low
   * and whose next tick reads high posts a release.
   */
  lemma ActiveLowBounceCommitsAfterOneSample(b: Instance, level: bool, now: Int64)
    requires b.activeLow
    requires b.cfg.checks <= b.counter < UInt8Modulus - 1
    ensures var o := Run(b, [Edge(level), Tick(!level, now)]);
            && o.btn.info.state == level
            && o.btn.timer == Disarmed
            && (b.info.state != level ==> o.log == [Post(b.pin, StateInfo(level, now))])
  {
    var e := IsrHandler(b, level);
    var t := DebounceTimerCallback(e, !level, now);
    assert Run(b, [Edge(level), Tick(!level, now)]) == Run(e, [Tick(!level, now)]);
    assert Run(e, [Tick(!level, now)]) == Outcome(t.btn, ToSeq(t.posted));
  }

  /** The 8-bit counter wraps: the 256th consecutive agreeing sample reads as zero and does not settle. */
  lemma CounterWraps(b: Instance, level: bool, now: Int64)
    requires b.timer.Armed? && b.cfg.checks >= 1
    requires b.counter == UInt8Modulus - 1
    requires GetRawState(b, level) == b.rawState
    ensures var o := Run(b, [Tick(level, now)]);
            && o.btn.counter == 0
            && o.btn.timer == b.timer
            && o.log == []
  {
  }
}

=== FILE: esp.dfy ===
/** Fixed-width integer types and error codes of the ESP-IDF interfaces the button driver uses. */
module Esp {

  /** `uint8_t`: the width of the debounce counter and of both debounce tunables. */
  type UInt8 = x: int | 0 <= x < 0x100

  /** Incrementing a `uint8_t` wraps modulo this value. */
  const UInt8Modulus: int := 0x100

  /** `int64_t`: a microsecond timestamp as esp_timer_get_time returns it. */
  type Int64 = x: int | -0x8000_0000_0000_0000 <= x < 0x8000_0000_0000_0000

  /** `gpio_num_t`; whether a pin number is usable is decided by gpio_config, an input of this model. */
  type Pin = int

  /** `esp_err_t`. */
  type Err = int

  const Ok: Err := 0
  const ErrInvalidState: Err := 0x103
}

=== FILE: event_bus.dfy ===
/**
 * The default event loop as the button driver uses it, through the legacy
 * registration call: handlers are registered under an event id, and every post
 * with that id is delivered, by value, to each handler registered for the id,
 * in registration order.
 */
module EventBus {
  import opened Esp

  /** A post that may or may not have happened. */
  datatype Option<+T> = None | Some(value: T)

  /** The elements of an option, as a sequence of length zero or one. */
  function ToSeq<T>(o: Option<T>): (s: seq<T>)
    ensures |s| <= 1
    ensures o.None? <==> s == []
    ensures o.Some? ==> s == [o.value]
  {
    match o
    case None => []
    case Some(v) => [v]
  }

  /** A posted event: the id it is keyed by and a copy of its payload. */
  datatype Post<P> = Post(id: int, data: P)

  /** A registered handler: the identity of the handler function and the argument it is called with. */
  datatype Handler = Handler(fn: nat, arg: nat)

  /** One handler invocation caused by a post. */
  datatype Delivery<P> = Delivery(handler: Handler, id: int, data: P)

  /** Handlers per event id, in registration order. */
  type Subscriptions = map<int, seq<Handler>>

  /** The handlers a post with this id reaches. */
  function HandlersFor(subs: Subscriptions, id: int): (hs: seq<Handler>)
  {
    if id in subs then subs[id] else []
  }

  /** Some entry of `hs` calls the handler function `fn`. */
  ghost predicate HasFn(hs: seq<Handler>, fn: nat)
  {
    exists k :: 0 <= k < |hs| && hs[k].fn == fn
  }

  /** Each handler function appears at most once. */
  ghost predicate UniqueFns(hs: seq<Handler>)
  {
    forall j, k :: 0 <= j < k < |hs| ==> hs[j].fn != hs[k].fn
  }

  /** Every id's handler list names each handler function at most once. */
  ghost predicate WellFormed(subs: Subscriptions)
  {
    forall id :: UniqueFns(HandlersFor(subs, id))
  }

  /** `later` keeps the handler functions of `earlier`, at the same positions. */
  ghost predicate FnPrefix(earlier: seq<Handler>, later: seq<Handler>)
  {
    |earlier| <= |later| && forall k :: 0 <= k < |earlier| ==> later[k].fn == earlier[k].fn
  }

  /** Registrations are never removed: every id keeps its handler functions. */
  ghost predicate Extends(earlier: Subscriptions, later: Subscriptions)
  {
    forall id :: FnPrefix(HandlersFor(earlier, id), HandlersFor(later, id))
  }

  /**
   * Adding `h` to one id's handler list under the legacy rule: an entry for the
   * same handler function takes the new argument in place; otherwise `h` is
   * appended.
   */
  function Upsert(hs: seq<Handler>, h: Handler): (r: seq<Handler>)
    ensures HasFn(hs, h.fn) ==> |r| == |hs|
    ensures !HasFn(hs, h.fn) ==> r == hs + [h]
    ensures FnPrefix(hs, r)
    ensures forall k :: 0 <= k < |hs| && hs[k].fn != h.fn ==> r[k] == hs[k]
    ensures h in r
  {
    if hs == [] then [h]
    else if hs[0].fn == h.fn then
      [h] + hs[1..]
    else
      HasFnPastHead(hs, h.fn);
      [hs[0]] + Upsert(hs[1..], h)
  }

  /** A function that the head does not call is in the list exactly when it is in the tail. */
  lemma HasFnPastHead(hs: seq<Handler>, fn: nat)
    requires hs != [] && hs[0].fn != fn
    ensures HasFn(hs, fn) <==> HasFn(hs[1..], fn)
  {
    if HasFn(hs, fn) {
      var k :| 0 <= k < |hs| && hs[k].fn == fn;
      assert hs[1..][k - 1].fn == fn;
    }
    if HasFn(hs[1..], fn) {
      var k :| 0 <= k < |hs[1..]| && hs[1..][k].fn == fn;
      assert hs[k + 1].fn == fn;
    }
  }

  /**
   * On a list naming each function once, the update keeps each function once,
   * and the entry for `h`'s function, if there was one, becomes `h`.
   */
  lemma {:induction false} UpsertKeepsUnique(hs: seq<Handler>, h: Handler)
    requires UniqueFns(hs)
    ensures UniqueFns(Upsert(hs, h))
    ensures forall k :: 0 <= k < |hs| && hs[k].fn == h.fn ==> Upsert(hs, h)[k] == h
  {
    if hs != [] && hs[0].fn != h.fn {
      var tail := hs[1..];
      assert UniqueFns(tail);
      UpsertKeepsUnique(tail, h);
      var rest := Upsert(tail, h);
      var r := [hs[0]] + rest;
      assert r == Upsert(hs, h);
      forall k | 0 <= k < |rest|
        ensures rest[k].fn != hs[0].fn
      {
        if k < |tail| {
          assert rest[k].fn == tail[k].fn && tail[k] == hs[k + 1];
        } else {
          assert !HasFn(tail, h.fn);
          assert rest[k] == h;
        }
      }
      ConsKeepsUnique(hs[0], rest);
      forall k | 0 <= k < |hs| && hs[k].fn == h.fn
        ensures r[k] == h
      {
        assert k > 0 && r[k] == rest[k - 1] && tail[k - 1] == hs[k];
      }
    }
  }

  /** Putting a handler in front of a list that does not name its function keeps the functions unique. */
  lemma ConsKeepsUnique(x: Handler, rest: seq<Handler>)
    requires UniqueFns(rest)
    requires forall k :: 0 <= k < |rest| ==> rest[k].fn != x.fn
    ensures UniqueFns([x] + rest)
  {
    var r := [x] + rest;
    forall j, k | 0 <= j < k < |r|
      ensures r[j].fn != r[k].fn
    {
      assert r[k] == rest[k - 1];
      if j > 0 {
        assert r[j] == rest[j - 1];
      }
    }
  }

  /**
   * esp_event_handler_register: a successful registration makes `h` a handler
   * of `id`. A handler function that is not yet registered for `id` is added
   * after the existing handlers; one that is already registered keeps its place
   * and only takes the new argument, so it never becomes a second subscriber.
   * A failed registration changes nothing.
   */
  function Register(subs: Subscriptions, id: int, h: Handler, result: Err): (r: Subscriptions)
    ensures result != Ok ==> r == subs
    ensures result == Ok ==> h in HandlersFor(r, id)
    ensures result == Ok && !HasFn(HandlersFor(subs, id), h.fn) ==>
              HandlersFor(r, id) == HandlersFor(subs, id) + [h]
    ensures result == Ok && HasFn(HandlersFor(subs, id), h.fn) ==>
              |HandlersFor(r, id)| == |HandlersFor(subs, id)|
    ensures result == Ok ==>
              forall k :: 0 <= k < |HandlersFor(subs, id)| && HandlersFor(subs, id)[k].fn != h.fn ==>
                HandlersFor(r, id)[k] == HandlersFor(subs, id)[k]
    ensures forall other :: other != id ==> HandlersFor(r, other) == HandlersFor(subs, other)
    ensures Extends(subs, r)
    ensures WellFormed(subs) ==> WellFormed(r)
  {
    if result == Ok then
      UpsertKeepsWellFormed(subs, id, h);
      subs[id := Upsert(HandlersFor(subs, id), h)]
    else subs
  }

  /** Updating one id's list keeps every id's functions unique. */
  lemma UpsertKeepsWellFormed(subs: Subscriptions, id: int, h: Handler)
    ensures WellFormed(subs) ==> WellFormed(subs[id := Upsert(HandlersFor(subs, id), h)])
  {
    if WellFormed(subs) {
      var r := subs[id := Upsert(HandlersFor(subs, id), h)];
      forall other
        ensures UniqueFns(HandlersFor(r, other))
      {
        if other == id {
          UpsertKeepsUnique(HandlersFor(subs, id), h);
        } else {
          assert HandlersFor(r, other) == HandlersFor(subs, other);
        }
      }
    }
  }

  /** The deliveries of one post to the handlers `hs`, in order. */
  function FanOut<P>(hs: seq<Handler>, post: Post<P>): (r: seq<Delivery<P>>)
    ensures |r| == |hs|
    ensures forall k :: 0 <= k < |r| ==> r[k] == Delivery(hs[k], post.id, post.data)
  {
    if hs == [] then [] else [Delivery(hs[0], post.id, post.data)] + FanOut(hs[1..], post)
  }

  /** esp_event_post: every handler registered for the post's id receives the same payload. */
  function Deliver<P>(subs: Subscriptions, post: Post<P>): (r: seq<Delivery<P>>)
    ensures |r| == |HandlersFor(subs, post.id)|
    ensures forall k :: 0 <= k < |r| ==> r[k].handler == HandlersFor(subs, post.id)[k]
    ensures forall d :: d in r ==> d.id == post.id && d.data == post.data
  {
    FanOut(HandlersFor(subs, post.id), post)
  }

  /** On well-formed subscriptions a post reaches each handler function at most once. */
  lemma DeliverOncePerFn<P>(subs: Subscriptions, post: Post<P>)
    requires WellFormed(subs)
    ensures forall i, j :: 0 <= i < j < |Deliver(subs, post)| ==>
              Deliver(subs, post)[i].handler.fn != Deliver(subs, post)[j].handler.fn
  {
    assert UniqueFns(HandlersFor(subs, post.id));
  }

  /** The deliveries of a sequence of posts made while the subscriptions were `subs`. */
  function DeliverAll<P>(subs: Subscriptions, posts: seq<Post<P>>): (ds: seq<Delivery<P>>)
  {
    if posts == [] then [] else Deliver(subs, posts[0]) + DeliverAll(subs, posts[1..])
  }

  /** Every delivery calls a handler function registered for the id, with a payload that was posted under that id. */
  ghost predicate Routed<P>(subs: Subscriptions, posts: seq<Post<P>>, ds: seq<Delivery<P>>)
  {
    forall d :: d in ds ==> HasFn(HandlersFor(subs, d.id), d.handler.fn) && Post(d.id, d.data) in posts
  }

  /** No cross-talk: the deliveries of a sequence of posts are routed by id. */
  lemma {:induction false} DeliverAllRouted<P>(subs: Subscriptions, posts: seq<Post<P>>)
    ensures Routed(subs, posts, DeliverAll(subs, posts))
  {
    if posts != [] {
      DeliverAllRouted(subs, posts[1..]);
      forall d | d in Deliver(subs, posts[0])
        ensures HasFn(HandlersFor(subs, d.id), d.handler.fn) && Post(d.id, d.data) in posts
      {
        var k :| 0 <= k < |Deliver(subs, posts[0])| && Deliver(subs, posts[0])[k] == d;
        assert posts[0] == Post(d.id, d.data);
        assert HandlersFor(subs, d.id)[k].fn == d.handler.fn;
      }
      forall d | d in DeliverAll(subs, posts[1..])
        ensures Post(d.id, d.data) in posts
      {
        assert Post(d.id, d.data) in posts[1..];
      }
    }
  }

  /** Routing survives new registrations and further posts. */
  lemma RoutedMonotone<P>(subs: Subscriptions, subs': Subscriptions, posts: seq<Post<P>>,
                          posts': seq<Post<P>>, ds: seq<Delivery<P>>)
    requires Routed(subs, posts, ds)
    requires Extends(subs, subs')
    requires forall p :: p in posts ==> p in posts'
    ensures Routed(subs', posts', ds)
  {
    forall d | d in ds
      ensures HasFn(HandlersFor(subs', d.id), d.handler.fn)
    {
      var k :| 0 <= k < |HandlersFor(subs, d.id)| && HandlersFor(subs, d.id)[k].fn == d.handler.fn;
      assert FnPrefix(HandlersFor(subs, d.id), HandlersFor(subs', d.id));
      assert HandlersFor(subs', d.id)[k].fn == d.handler.fn;
    }
  }

  /**
   * Two different handler functions registered for the same id both receive
   * every later post under that id, each with an identical copy of its payload.
   */
  lemma TwoHandlersSameSnapshot<P>(subs: Subscriptions, id: int, h1: Handler, h2: Handler, post: Post<P>)
    requires WellFormed(subs)
    requires post.id == id && h1.fn != h2.fn
    ensures var subs' := Register(Register(subs, id, h1, Ok), id, h2, Ok);
            var ds := Deliver(subs', post);
            && Delivery(h1, id, post.data) in ds
            && Delivery(h2, id, post.data) in ds
  {
    var once := Register(subs, id, h1, Ok);
    var subs' := Register(once, id, h2, Ok);
    var hs := HandlersFor(subs', id);
    var ds := Deliver(subs', post);
    assert h2 in hs;
    var k2 :| 0 <= k2 < |hs| && hs[k2] == h2;
    assert ds[k2] == Delivery(h2, id, post.data);
    var hs1 := HandlersFor(once, id);
    var k1 :| 0 <= k1 < |hs1| && hs1[k1] == h1;
    assert hs[k1] == h1;
    assert ds[k1] == Delivery(h1, id, post.data);
  }

  /**
   * Registering the same handler function again for an id does not add a
   * second subscriber: a post reaches it once, with the latest argument.
   */
  lemma ReRegisteringReplacesArgument<P>(subs: Subscriptions, id: int, fn: nat, a1: nat, a2: nat, post: Post<P>)
    requires WellFormed(subs)
    requires post.id == id
    ensures var once := Register(subs, id, Handler(fn, a1), Ok);
            var twice := Register(once, id, Handler(fn, a2), Ok);
            && |Deliver(twice, post)| == |Deliver(once, post)|
            && Delivery(Handler(fn, a2), id, post.data) in Deliver(twice, post)
            && (forall d :: d in Deliver(twice, post) && d.handler.fn == fn ==> d.handler.arg == a2)
            && (forall i, j :: 0 <= i < j < |Deliver(twice, post)| ==>
                  Deliver(twice, post)[i].handler.fn != Deliver(twice, post)[j].handler.fn)
  {
    var once := Register(subs, id, Handler(fn, a1), Ok);
    var twice := Register(once, id, Handler(fn, a2), Ok);
    var hs0 := HandlersFor(subs, id);
    var hs := Upsert(Upsert(hs0, Handler(fn, a1)), Handler(fn, a2));
    UpsertSameFnTwice(hs0, fn, a1, a2);
    FanOutLatestArg(hs, post, fn, a2);
    assert HandlersFor(once, id) == Upsert(hs0, Handler(fn, a1));
    assert Deliver(twice, post) == FanOut(hs, post);
    DeliverOncePerFn(twice, post);
  }

  /** When every entry for `fn` is `Handler(fn, a)` and there is one, a post reaches `fn` with `a` and only with `a`. */
  lemma FanOutLatestArg<P>(hs: seq<Handler>, post: Post<P>, fn: nat, a: nat)
    requires Handler(fn, a) in hs
    requires forall j :: 0 <= j < |hs| && hs[j].fn == fn ==> hs[j] == Handler(fn, a)
    ensures Delivery(Handler(fn, a), post.id, post.data) in FanOut(hs, post)
    ensures forall d :: d in FanOut(hs, post) && d.handler.fn == fn ==> d.handler.arg == a
  {
    var ds := FanOut(hs, post);
    var k :| 0 <= k < |hs| && hs[k] == Handler(fn, a);
    assert ds[k] == Delivery(Handler(fn, a), post.id, post.data);
    forall d | d in ds && d.handler.fn == fn
      ensures d.handler.arg == a
    {
      var j :| 0 <= j < |ds| && ds[j] == d;
    }
  }

  /** Two updates with the same function leave one entry for it, carrying the second argument. */
  lemma UpsertSameFnTwice(hs0: seq<Handler>, fn: nat, a1: nat, a2: nat)
    requires UniqueFns(hs0)
    ensures var hs1 := Upsert(hs0, Handler(fn, a1));
            var hs := Upsert(hs1, Handler(fn, a2));
            && |hs| == |hs1|
            && Handler(fn, a2) in hs
            && forall j :: 0 <= j < |hs| && hs[j].fn == fn ==> hs[j] == Handler(fn, a2)
  {
    var hs1 := Upsert(hs0, Handler(fn, a1));
    UpsertKeepsUnique(hs0, Handler(fn, a1));
    UpsertKeepsUnique(hs1, Handler(fn, a2));
    assert HasFn(hs1, fn) by {
      var i :| 0 <= i < |hs1| && hs1[i] == Handler(fn, a1);
    }
  }
}

=== FILE: scenarios.dfy ===
/**
 * Concrete runs of a button as button_init leaves it. The memory the instance
 * occupied before button_init is arbitrary.
 */
module Scenarios {
  import opened Esp
  import opened EventBus
  import opened Button
  import opened Debounce

  /** A button on GPIO 4 right after a successful button_init. */
  function Fresh(garbage: Instance, activeLow: bool): (b: Instance)
    ensures b.pin == 4 && b.activeLow == activeLow
    ensures b.info == StateInfo(false, 0) && !b.rawState && b.counter == 0 && b.timer == Disarmed
    ensures b.cfg == DebounceCfg(5, 10)
  {
    Init(garbage, 4, activeLow, Ok, Ok, 0, false).btn
  }

  /** Ticks sampling `level` every 10 ms, the first at 10 ms after boot. */
  function EveryTenMs(level: bool, n: nat): (trace: seq<Action>)
    requires n <= 1000
    ensures |trace| == n
    ensures forall k :: 0 <= k < n ==> trace[k] == Tick(level, (k + 1) * 10000)
  {
    if n == 0 then [] else EveryTenMs(level, n - 1) + [Tick(level, n * 10000)]
  }

  lemma RunEdgeFirst(b: Instance, level: bool, trace: seq<Action>)
    ensures Run(b, [Edge(level)] + trace) == Run(IsrHandler(b, level), trace)
  {
    assert ([Edge(level)] + trace)[1..] == trace;
  }

  /**
   * Active-high, threshold 5, interval 10 ms: an edge to high followed by five
   * high samples posts exactly one event, {pressed, time of the fifth sample};
   * four samples post nothing.
   */
  lemma ScenarioA(garbage: Instance)
    ensures Run(Fresh(garbage, false), [Edge(true)] + EveryTenMs(true, 4)).log == []
    ensures Run(Fresh(garbage, false), [Edge(true)] + EveryTenMs(true, 5)).log
            == [Post(4, StateInfo(true, 50000))]
  {
    var b := Fresh(garbage, false);
    var e := IsrHandler(b, true);
    assert e.timer == Armed(10000);
    RunEdgeFirst(b, true, EveryTenMs(true, 4));
    RunEdgeFirst(b, true, EveryTenMs(true, 5));
    QuietBelowThreshold(e, EveryTenMs(true, 4));
    CommitsAtThreshold(e, EveryTenMs(true, 5));
  }

  /**
   * The same press on an active-low button (pressed reads low): the edge stores
   * the unadjusted low level, the first sample disagrees with it, and the press
   * is committed at the sixth sample instead of the fifth.
   */
  lemma ScenarioAActiveLow(garbage: Instance)
    ensures Run(Fresh(garbage, true), [Edge(false)] + EveryTenMs(false, 5)).log == []
    ensures Run(Fresh(garbage, true), [Edge(false)] + EveryTenMs(false, 6)).btn.info.state
  {
    var b := Fresh(garbage, true);
    var e := IsrHandler(b, false);
    RunEdgeFirst(b, false, EveryTenMs(false, 5));
    RunEdgeFirst(b, false, EveryTenMs(false, 6));
    var t5 := EveryTenMs(false, 5);
    var t6 := EveryTenMs(false, 6);
    assert t5 == [t5[0]] + t5[1..];
    assert t6 == [t6[0]] + t6[1..];
    SettlesAfterThresholdSamples(e, false, 10000, t5[1..]);
    SettlesAfterThresholdSamples(e, false, 10000, t6[1..]);
  }

  /** A bounce: high, low, high, 10 ms apart. */
  const Bounce: seq<Action> := [Tick(true, 10000), Tick(false, 20000), Tick(true, 30000)]

  /** Three more high samples after the bounce. */
  const Settle: seq<Action> := [Tick(true, 40000), Tick(true, 50000), Tick(true, 60000)]

  /**
   * On an active-high button that has just seen an edge to high, with a
   * threshold of at least 2, the bounce leaves the button exactly as it was:
   * the low sample and the high sample after it each reset the count, so its
   * progress is discarded.
   */
  lemma BounceDiscardsProgress(e: Instance, rest: seq<Action>)
    requires !e.activeLow && e.rawState && e.counter == 0 && e.timer.Armed? && e.cfg.checks >= 2
    ensures Run(e, Bounce + rest) == Run(e, rest)
  {
    var t := Bounce + rest;
    var s1 := Apply(e, t[0]).btn;
    assert s1 == e.(counter := 1);
    var s2 := Apply(s1, t[1]).btn;
    assert s2 == e.(rawState := false);
    assert Apply(s2, t[2]).btn == e;
    SilentStep(e, t);
    SilentStep(s1, t[1..]);
    SilentStep(s2, t[2..]);
    assert t[1..][1..] == t[2..] && t[2..][1..] == rest;
  }

  /**
   * Threshold 3, active-high, an edge to high then samples 1, 0, 1, 1, 1: the
   * low sample and the high sample after it each restart the count, so five
   * samples commit nothing; a sixth high sample commits the press.
   */
  lemma ScenarioB(garbage: Instance)
    ensures var b := SetDebounceConf(Fresh(garbage, false), DebounceCfg(3, 10)).1;
            && Run(b, [Edge(true)] + Bounce + Settle[..2]).log == []
            && Run(b, [Edge(true)] + Bounce + Settle).log == [Post(4, StateInfo(true, 60000))]
  {
    var b := SetDebounceConf(Fresh(garbage, false), DebounceCfg(3, 10)).1;
    var e := IsrHandler(b, true);
    assert [Edge(true)] + Bounce + Settle[..2] == [Edge(true)] + (Bounce + Settle[..2]);
    assert [Edge(true)] + Bounce + Settle == [Edge(true)] + (Bounce + Settle);
    RunEdgeFirst(b, true, Bounce + Settle[..2]);
    RunEdgeFirst(b, true, Bounce + Settle);
    BounceDiscardsProgress(e, Settle[..2]);
    BounceDiscardsProgress(e, Settle);
    QuietBelowThreshold(e, Settle[..2]);
    CommitsAtThreshold(e, Settle);
  }
}
